=== FILE: README.md ===
# rustychains: staging and running code in a Docker sandbox, and workflow building

This project models in Dafny the core of rustychains, a Rust library that runs
user programs inside a Docker sandbox. The model covers two parts.

- `DockerSandbox::run_code` from `src/sandbox.rs`. It creates a temporary
  staging directory and derives the names the code file gets inside it. It
  copies the file in, compiles it in one container when the language has a
  compiler, and runs it in a second container. Finally it splits the
  container's output stream into stdout and stderr and checks that both are
  UTF-8.
- The workflow builder from `src/workflow.rs`. It collects an input text,
  steps and exports, then builds a `Workflow` by constructing the sandbox.

Everything outside the program is a parameter (`Sandbox.Host`,
`Workflows.NewSandbox`), and `run_code` is modelled as a pure function:

- the operating system is the temporary directory and `fs::copy`;
- Docker is the container lifecycle and image building.

Each run returns its result together with the ordered list of requests it made
(`MakeTempDir`, `Copy`, `Exec`). The contracts describe that request trace.

Files:

| file | module | what it holds |
|---|---|---|
| `wrappers.dfy` | `Wrappers` | `Option`, `Result`, `Outcome` |
| `paths.dfy` | `Paths` | Unix `std::path` operations: `file_name`, `file_stem`, `with_extension`, `join` |
| `utf8.dfy` | `Utf8` | UTF-8 as in RFC 3629 section 4; `str::from_utf8` with `valid_up_to` |
| `errors.dfy` | `SandboxErrors` | `SandboxError` and its I/O and Docker causes |
| `languages.dfy` | `Languages` | the language table: extensions, compiler, runner, build and run commands |
| `staging.dfy` | `Staging` | `get_sandbox_files`, as written and corrected, and `get_commands` |
| `output.dfy` | `Output` | `convert_chunks` over the multiplexed chunk stream |
| `sandbox.dfy` | `Sandbox` | `exec_container` as an oracle; `run_code` and its request trace |
| `workflow.dfy` | `Workflows` | `Step`, `Export`, `WorkflowBuilder`, `build` |

## Model

| member | source | states |
|---|---|---|
| Languages.SourceExtension | src/sandbox.rs:336-341 | every language's source extension is a bare extension: non-empty, with no dot and no separator |
| Languages.CompiledExtension | src/sandbox.rs:343-348 | the compiled extension is either empty (a compiled artifact named by the bare stem) or equal to the source extension (the source itself is run) |
| Languages.Compiler | src/sandbox.rs:350-355 | a language has a compiler exactly when its compiled extension differs from its source extension; a compiler name is non-empty |
| Languages.Runner | src/sandbox.rs:357-362 | every language has a non-empty runner |
| Languages.BuildCmd | src/sandbox.rs:401-405 | the build command is empty exactly when the language has no compiler; Python has none; Java gives `javac <source>` |
| Languages.RunCmd | src/sandbox.rs:407-410 | the run command always has two words: the runner, then the runnable file (`python f` and `java f`) |
| Paths.FileName | src/sandbox.rs:378-381 | a file name, when there is one, is a single normal component: non-empty, not `.` or `..`, and with no separator |
| Paths.FileStem | src/sandbox.rs:378-381 | `file_stem` exists exactly when `file_name` does; it is non-empty, has no separator, and is a prefix of the file name. It is the whole name exactly when the name has no `.` after its first character; otherwise it stops right before the name's last `.` |
| Paths.NameUnderJoin | src/sandbox.rs:384-385 | for a bare name, joining it onto a directory and then changing its extension gives the same path as changing the extension first and then joining, so the file stays inside the directory |
| Paths.ParentUnderJoin | src/sandbox.rs:384-385 | `..` has no file name, so `with_extension` leaves it unchanged, whether it stands alone or is joined onto a base |
| Paths.CurDirUnderJoin | src/sandbox.rs:384 | joining `.` onto a path that ends in a normal name adds no file name, so `with_extension` rewrites the base's own last component |
| Staging.GetSandboxFilesAsWritten | src/sandbox.rs:373-392 | `get_sandbox_files` as written: it fails, with `InvalidCodeFile(code_file)`, exactly when the code file has no stem |
| Staging.GetSandboxFiles | src/sandbox.rs:373-392 | corrected staging: it fails exactly when there is no stem, with `InvalidCodeFile`; otherwise the host copy is the staging directory joined with the container-side source name, and both container-side names are non-empty single components |
| Staging.StagedFileNames | src/sandbox.rs:384-386 | the staged names are the stem with its last extension replaced by the source extension or the compiled extension; a stem of `.` or `..` is used unchanged |
| Staging.GetCommands | src/sandbox.rs:394-399 | the build command is empty exactly when there is no compiler, and otherwise it is the compiler applied to the container-side source; the run command is the runner applied to the container-side runnable file |
| Staging.PythonRunsItsSource | src/sandbox.rs:343-348 | for Python nothing is built, and the runner is given exactly the staged source file |
| Staging.JavaRunsWhatItCompiles | src/sandbox.rs:384-386 | for Java and a code file whose stem is a normal name, `javac` gets `<name>.java` and `java` gets `<name>`. Here `<name>` is the file stem with its own last extension dropped as well, so for `A.b.java` the commands are `javac A.java` and `java A` |
| Staging.AsWrittenAgreesUnlessDotStem | src/sandbox.rs:384 | for every code file whose stem is not `.`, the code as written and the corrected staging give the same result |
| Staging.DotStemStagesOutside | src/sandbox.rs:384 | as written, the code file `..py` in staging directory `/tmp/abc` gets the host copy `/tmp/abc.py`, which is outside the staging directory, while the container is told to run `.` |
| Utf8.FromUtf8 | src/sandbox.rs:272-278 | on rejection, `valid_up_to` is an index inside the input |
| Utf8.FromUtf8AcceptsValid | src/sandbox.rs:272-278 | `from_utf8` succeeds exactly on byte strings that are valid UTF-8 as in RFC 3629 section 4 |
| Utf8.FromUtf8Reencodes | src/sandbox.rs:272-278 | the string `from_utf8` returns encodes back to exactly the input bytes |
| Utf8.FromUtf8StopsAtError | src/sandbox.rs:272-278 | on rejection, the bytes before `valid_up_to` are valid UTF-8, and no well-formed character starts at `valid_up_to` |
| Utf8.ValidUpToIsMaximal | src/sandbox.rs:272-278 | no prefix of the input longer than `valid_up_to` is valid UTF-8 |
| Utf8.DecodeEncode | src/sandbox.rs:272-278 | decoding the UTF-8 encoding of any string gives that string back |
| Utf8.EncodeIsInjective | src/sandbox.rs:272-278 | different strings have different encodings, so a decoded output is determined by its bytes |
| Utf8.ValidPrefixSplits | src/sandbox.rs:272-278 | a valid byte sequence that is cut at a character boundary leaves a valid remainder |
| Output.ConvertChunks | src/sandbox.rs:249-281 | stdout is checked first: `InvalidBytesStdOut` exactly when the stdout bytes are invalid; `InvalidBytesStdErr` exactly when stdout is valid and stderr is not; on success, the two strings encode exactly the bytes of their channels |
| Output.ChannelBytesAppend | src/sandbox.rs:250-259 | collecting a channel distributes over concatenation of the stream |
| Output.OtherChannelsContributeNothing | src/sandbox.rs:250-270 | a channel's bytes depend only on that channel's chunks, however the other channels are interleaved |
| Output.ChannelsPartitionTheStream | src/sandbox.rs:250-270 | every byte of the stream is collected into exactly one channel |
| Output.StdinEchoIsDiscarded | src/sandbox.rs:253-254 | removing every `StdIn` chunk from the stream leaves the result of `convert_chunks` unchanged |
| Output.ConvertChunksOfText | src/sandbox.rs:249-281 | if the stdout and stderr bytes encode two strings, `convert_chunks` returns exactly those strings, whatever the interleaving |
| Sandbox.BuildAndRun | src/sandbox.rs:146-164 | the containers executed are a prefix of the plan: the build, only if there is a build command and without stdin, then the run with the caller's stdin. Every execution but the last succeeded. The run fails exactly when the last execution failed, with that execution's error. On success the whole plan ran and the result is the output of the run command |
| Sandbox.CopyAndRun | src/sandbox.rs:145-164 | the requests are a prefix of the plan "copy the code file to the staged host path, then build and run", and they stop at the first failure, whose error is the result; a failed copy is `CopyCodeFile`; on success the whole plan ran and the result is the output of the run command |
| Sandbox.RunCode | src/sandbox.rs:133-165 | with the corrected staging: the requests are a prefix of the plan "create the staging directory, copy the code file in, build if the language compiles, run", and every request but the last succeeded. The result fails exactly when the last request failed, with its error (`CreateTempDirectory`, `CopyCodeFile` or a container error), or when the code file has no stem; that case fails with `InvalidCodeFile` right after the directory was created. On success the whole plan ran, and the result is the output of the run container. The copy, when there is one, goes to the staged host path |
| Sandbox.RunCodeAsWritten | src/sandbox.rs:133-165 | `run_code` as written: the staging directory is requested first, and a failure to create it is `CreateTempDirectory`; a code file without a stem fails with `InvalidCodeFile` right after it. Otherwise the requests are a prefix of the plan "create the staging directory, copy the code file to the host path `get_sandbox_files` computes as written, build if the language compiles, run"; every request but the last succeeded, the run fails exactly when the last request failed and with its error, and on success the whole plan ran and the result is the output of the run container. This holds for a stem of `.` as well |
| Sandbox.AsWrittenRunAgreesUnlessDotStem | src/sandbox.rs:384 | for every code file whose stem is not `.`, `run_code` as written and the corrected model make the same requests and return the same result |
| Sandbox.DotStemRunCopiesOutside | src/sandbox.rs:143-145 | for the code file `..py` in staging directory `/tmp/abc`, `run_code` as written copies to `/tmp/abc.py`; the corrected model's copy request names `/tmp/abc` joined with `.`, which is the staging directory itself, the path `python .` is pointed at. The correction keeps the write from landing outside the staging directory; for a stem of `.` neither version stages a runnable file |
| Sandbox.NoContainerBeforeStaging | src/sandbox.rs:139-146 | a container is executed only after the staging directory was created, the code file had a stem and the copy succeeded |
| Sandbox.PythonNeverBuilds | src/sandbox.rs:146-164 | for Python, the only container ever started runs `python <staged file>` with the caller's stdin |
| Sandbox.JavaBuildsBeforeRunning | src/sandbox.rs:146-164 | for Java, the first container is `javac <source>` without stdin, and `java` is started only after the build container returned without error; the compiler's exit status is not checked |
| Sandbox.FailedBuildNeverRuns | src/sandbox.rs:146-155 | a build container that returns an error (a container lifecycle or UTF-8 error, not a non-zero exit status) ends the run: that error is the result, and the run command is never executed |
| Sandbox.SuccessIsTheProgramsText | src/sandbox.rs:156-164 | a successful run returns the decoded stdout and stderr bytes of the run container |
| Workflows.Builder | src/workflow.rs:86-97 | a new builder keeps the given directory and image tag, and has an empty input and no steps or exports |
| Workflows.Input | src/workflow.rs:101-104 | `input` replaces the input and changes nothing else |
| Workflows.AddStep | src/workflow.rs:106-109 | `add_step` appends the step after the existing ones and changes nothing else |
| Workflows.AddExport | src/workflow.rs:111-114 | `add_export` appends the export after the existing ones and changes nothing else |
| Workflows.Build | src/workflow.rs:116-126 | `build` fails exactly when sandbox construction fails, and wraps that error in `SandboxInit`. Otherwise the sandbox runs its containers from the builder's image tag, as `DockerSandbox::new` stores it, and the input, steps and exports are carried over unchanged |
| Workflows.ChainAddsSteps | src/workflow.rs:106-109 | over any chain of builder calls, steps accumulate in call order |
| Workflows.ChainAddsExports | src/workflow.rs:111-114 | over any chain of builder calls, exports accumulate in call order |
| Workflows.ChainSetsLastInput | src/workflow.rs:101-104 | over any chain of builder calls, the last `input` call wins |
| Workflows.ChainKeepsContext | src/workflow.rs:86-114 | no builder call changes the Docker directory or the image tag |
| Workflows.BuiltWorkflowFollowsChain | src/workflow.rs:86-126 | a workflow built from a fresh builder holds exactly the chain's steps and exports, in order, and its last input, and its sandbox uses the image tag the builder was created with; construction errors surface as `SandboxInit` |
| Workflows.InputOverwrites | src/workflow.rs:101-104 | setting the input twice is the same as setting it once to the second value |
| Workflows.StepAndExportCommute | src/workflow.rs:106-114 | adding a step and adding an export commute |

## Left out

- Sandbox.RunCode: stages the code file with the corrected `Staging.GetSandboxFiles`, so for a code file whose stem is `.` (such as `..py`) its copy request names the staging directory itself (`/tmp/abc` joined with `.`), the path the container's `python .` is pointed at. That copy targets a directory, so neither version stages a runnable file for such a stem; the correction only keeps the write from landing outside the staging directory. The source instead copies to the staging directory's path with the extension appended (`/tmp/abc.py`). That behaviour is `Sandbox.RunCodeAsWritten`, and the two agree for every other stem (`Sandbox.AsWrittenRunAgreesUnlessDotStem`).
- `DockerSandbox::new` (`validate_directory`, `build_image`): sandbox construction talks to the file system and to Docker. The `Workflows.NewSandbox` parameter only says whether it succeeded or which error it raised. `MissingDockerfile`, `RetrieveAbsolutePath` and `BuildImage` therefore come only from that parameter. The Docker client handle is not modelled; a sandbox is its image tag.
- `exec_container` (`create_container`, start, attach, the stdin write, wait, the output drain, `remove_container`): this is the Docker lifecycle. `Sandbox.Host.container` returns either the drained chunks or the lifecycle error; only `convert_chunks` on those chunks is modelled.
- The code leaks the container when start, attach, the stdin write, wait or the drain fails, because the removal is skipped. This is part of the Docker oracle and is not modelled.
- The code starts the container before it attaches to it, so output written before the attach could be lost. This is also inside the oracle.
- Exit statuses: `exec_container` waits for the container but discards the status `wait` reports (src/sandbox.rs:229-235). A `javac` run that exits non-zero with compile errors on stderr therefore counts as a successful build, and `run_code` goes on to run `java`. The model follows the code: `Sandbox.Host.container` returns chunks or a lifecycle error and carries no exit status, so "a failed build" in `Sandbox.FailedBuildNeverRuns` and `Sandbox.JavaBuildsBeforeRunning` means an error from the build container, not a compile error.
- `TempDir::new` and `fs::copy` are the `tempDir` and `copyFile` parameters. Removing the temporary directory on drop is not modelled.
- `SandboxError::CloseStdin` is declared in the source but never produced, so it is not part of the error type.
- The I/O, Docker and UTF-8 error causes are reduced to a message. For `Utf8Error` only `valid_up_to` is kept; `error_len` is left out.
- Paths are Unix paths made of Unicode characters. Windows prefixes and non-UTF-8 `OsStr` contents are not modelled. `display()` is the identity on such paths.
- `run_code` has no timeout in the source, and none is modelled. The workflow's `Duration`, `StepResult` and `ExportResult` types are never used by the modelled code.
- The `WorkflowError` variants `StepError` and `ExportError` are declared but never produced, because the source has no `Workflow::execute`. Only `SandboxInit` is modelled.
- The workflow tests call APIs the source does not define: `Step::new`, `Language::JavaScript`, `input(Some(..))` and `execute`. They are not modelled.
- Asynchrony and the builder's `&mut Self` chaining become pure functions from builder to builder. `Workflows.Chain` stands for a sequence of chained calls.

## Findings

| source | as written | input that shows it | evidently intended | confidence | as-written member | corrected member |
|---|---|---|---|---|---|---|
| src/sandbox.rs:384 | the host copy is `temp_dir.join(stem).with_extension(source_ext)`. When the stem is `.`, the joined path's file name is the staging directory's own name, so `with_extension` renames the staging directory | code file `..py` (stem `.`) with Python and staging directory `/tmp/abc`: the host copy is `/tmp/abc.py`, outside the staging directory, while the container runs `python .` | the host copy is the staging directory joined with the container-side source name (`temp_dir.join(container_src)`), the path the container is told to use, so that the host copy never leaves the staging directory | medium, not executed | Staging.GetSandboxFilesAsWritten | Staging.GetSandboxFiles |

=== FILE: errors.dfy ===
/** The error type of `src/sandbox.rs`. Causes coming from the operating
    system or from the Docker client are opaque messages here. */
module SandboxErrors {
  import opened Paths
  import opened Utf8

  /** A `std::io::Error`. */
  datatype IoError = IoError(message: string)

  /** A `shiplift::Error` returned by the Docker client. */
  datatype DockerError = DockerError(message: string)

  datatype SandboxError =
    | MissingDockerfile(directory: Path)
    | RetrieveAbsolutePath(directory: Path, ioCause: IoError)
    | CreateTempDirectory(ioCause: IoError)
    | InvalidCodeFile(codeFile: Path)
    | CopyCodeFile(src: Path, dest: Path, ioCause: IoError)
    | BuildImage(dockerCause: DockerError)
    | CreateContainer(imageTag: string, dockerCause: DockerError)
    | AtachToContainer(containerId: string, dockerCause: DockerError)
    | StartContainer(containerId: string, dockerCause: DockerError)
    | Execute(cmd: string, dockerCause: DockerError)
    | RemoveContainer(containerId: string, dockerCause: DockerError)
    | WriteToStdin(ioCause: IoError)
    | InvalidBytesStdOut(utf8Cause: Utf8Error)
    | InvalidBytesStdErr(utf8Cause: Utf8Error)
}

=== FILE: languages.dfy ===
/** The language profile table of `src/sandbox.rs`: for each supported
    language, the file extensions and the programs that compile and run it
    inside the sandbox image. */
module Languages {
  import opened Wrappers
  import opened Paths

  datatype Language = Python | Java

  /** A bare extension: non-empty, with no dot and no separator. */
  predicate IsExtension(e: string) {
    e != [] && forall k :: 0 <= k < |e| ==> e[k] != '.' && e[k] != Separator
  }

  /** `get_source_extension`: the extension a code file is staged under. */
  function SourceExtension(lang: Language): (e: string)
    ensures IsExtension(e)
  {
    match lang
    case Python => "py"
    case Java => "java"
  }

  /** `get_compiled_extension`: the extension of what the runner is given.
      An interpreted language runs its source, so the two agree; a compiled
      one runs an artifact named by the bare stem. */
  function CompiledExtension(lang: Language): (e: string)
    ensures e == [] || e == SourceExtension(lang)
  {
    match lang
    case Python => "py"
    case Java => ""
  }

  /** `get_compiler`: present exactly for the languages whose runnable
      artifact differs from their source. */
  function Compiler(lang: Language): (c: Option<string>)
    ensures c.Some? <==> CompiledExtension(lang) != SourceExtension(lang)
    ensures c.Some? ==> c.value != []
  {
    match lang
    case Python => None
    case Java => Some("javac")
  }

  /** `get_runner`: every language has one. */
  function Runner(lang: Language): (r: string)
    ensures r != []
  {
    match lang
    case Python => "python"
    case Java => "java"
  }

  /** `get_build_cmd`: empty when the language needs no compiler, otherwise
      the compiler applied to the staged source. */
  function BuildCmd(sourceFile: Path, lang: Language): (cmd: seq<string>)
    ensures cmd == [] <==> Compiler(lang).None?
    ensures lang == Python ==> cmd == []
    ensures lang == Java ==> cmd == ["javac", sourceFile]
  {
    match Compiler(lang)
    case None => []
    case Some(compiler) => [compiler, sourceFile]
  }

  /** `get_run_cmd`: always the runner followed by the runnable file. */
  function RunCmd(compiledFile: Path, lang: Language): (cmd: seq<string>)
    ensures |cmd| == 2 && cmd[0] == Runner(lang) && cmd[1] == compiledFile
    ensures lang == Python ==> cmd == ["python", compiledFile]
    ensures lang == Java ==> cmd == ["java", compiledFile]
  {
    [Runner(lang), compiledFile]
  }
}

=== FILE: output.dfy ===
/** `convert_chunks` of `src/sandbox.rs`: splitting a container's
    multiplexed output into its standard output and standard error, and
    checking that both are text. */
module Output {
  import opened Wrappers
  import opened Utf8
  import opened SandboxErrors

  /** A chunk of the attached stream (`shiplift::tty::TtyChunk`), tagged with
      the channel it was written to. */
  datatype Chunk = StdIn(bytes: seq<Byte>) | StdOut(bytes: seq<Byte>) | StdErr(bytes: seq<Byte>)

  datatype Channel = InChannel | OutChannel | ErrChannel

  function ChannelOf(c: Chunk): Channel {
    match c
    case StdIn(_) => InChannel
    case StdOut(_) => OutChannel
    case StdErr(_) => ErrChannel
  }

  /** `RunOutput`. */
  datatype RunOutput = RunOutput(stdout: string, stderr: string)

  /** The bytes written to `ch`: the payloads of its chunks, concatenated in
      stream order (`filter_map`, `flatten`, `collect`). */
  function ChannelBytes(chunks: seq<Chunk>, ch: Channel): seq<Byte>
  {
    if chunks == [] then []
    else
      var rest := ChannelBytes(chunks[1..], ch);
      if ChannelOf(chunks[0]) == ch then chunks[0].bytes + rest else rest
  }

  /** `convert_chunks`: the two text streams, stdout checked first. */
  function ConvertChunks(chunks: seq<Chunk>): (r: Result<RunOutput, SandboxError>)
    ensures r.Failure? ==> r.error.InvalidBytesStdOut? || r.error.InvalidBytesStdErr?
    ensures r.Failure? && r.error.InvalidBytesStdOut? <==> !ValidUtf8(ChannelBytes(chunks, OutChannel))
    ensures r.Failure? && r.error.InvalidBytesStdErr? <==>
      ValidUtf8(ChannelBytes(chunks, OutChannel)) && !ValidUtf8(ChannelBytes(chunks, ErrChannel))
    ensures r.Success? ==>
      && Encode(r.value.stdout) == ChannelBytes(chunks, OutChannel)
      && Encode(r.value.stderr) == ChannelBytes(chunks, ErrChannel)
  {
    var stdout := ChannelBytes(chunks, OutChannel);
    var stderr := ChannelBytes(chunks, ErrChannel);
    FromUtf8Spec(stdout);
    FromUtf8Spec(stderr);
    match FromUtf8(stdout)
    case Failure(e) => Failure(InvalidBytesStdOut(e))
    case Success(out) =>
      match FromUtf8(stderr)
      case Failure(e) => Failure(InvalidBytesStdErr(e))
      case Success(err) => Success(RunOutput(out, err))
  }

  /** Collecting a channel distributes over concatenation of the stream: the
      bytes of each part appear in order. */
  lemma {:induction false} ChannelBytesAppend(a: seq<Chunk>, b: seq<Chunk>, ch: Channel)
    ensures ChannelBytes(a + b, ch) == ChannelBytes(a, ch) + ChannelBytes(b, ch)
    decreases |a|
  {
    if a == [] {
      assert a + b == b;
    } else {
      assert (a + b)[0] == a[0];
      assert (a + b)[1..] == a[1..] + b;
      ChannelBytesAppend(a[1..], b, ch);
    }
  }

  /** The chunks of `chunks` that were written to `ch`, in order. */
  function OnChannel(chunks: seq<Chunk>, ch: Channel): (r: seq<Chunk>)
    ensures forall i :: 0 <= i < |r| ==> ChannelOf(r[i]) == ch
  {
    if chunks == [] then []
    else if ChannelOf(chunks[0]) == ch then [chunks[0]] + OnChannel(chunks[1..], ch)
    else OnChannel(chunks[1..], ch)
  }

  /** A channel's bytes are decided by that channel's chunks alone: chunks
      of the other channels, wherever they are interleaved, contribute
      nothing. */
  lemma {:induction false} OtherChannelsContributeNothing(chunks: seq<Chunk>, ch: Channel)
    ensures ChannelBytes(chunks, ch) == ChannelBytes(OnChannel(chunks, ch), ch)
  {
    if chunks != [] {
      OtherChannelsContributeNothing(chunks[1..], ch);
      if ChannelOf(chunks[0]) == ch {
        var rest := OnChannel(chunks[1..], ch);
        assert ([chunks[0]] + rest)[0] == chunks[0];
        assert ([chunks[0]] + rest)[1..] == rest;
      }
    }
  }

  /** Every byte of the stream lands in exactly one channel. */
  lemma {:induction false} ChannelsPartitionTheStream(chunks: seq<Chunk>)
    ensures |ChannelBytes(chunks, InChannel)| + |ChannelBytes(chunks, OutChannel)|
          + |ChannelBytes(chunks, ErrChannel)| == TotalBytes(chunks)
  {
    if chunks != [] {
      ChannelsPartitionTheStream(chunks[1..]);
    }
  }

  function TotalBytes(chunks: seq<Chunk>): nat {
    if chunks == [] then 0 else |chunks[0].bytes| + TotalBytes(chunks[1..])
  }

  /** The stdin echo is discarded: removing every `StdIn` chunk from the
      stream leaves the result of `convert_chunks` unchanged. */
  lemma StdinEchoIsDiscarded(chunks: seq<Chunk>)
    ensures ConvertChunks(WithoutStdIn(chunks)) == ConvertChunks(chunks)
  {
    EchoFreeBytes(chunks, OutChannel);
    EchoFreeBytes(chunks, ErrChannel);
  }

  function WithoutStdIn(chunks: seq<Chunk>): seq<Chunk> {
    if chunks == [] then []
    else if chunks[0].StdIn? then WithoutStdIn(chunks[1..])
    else [chunks[0]] + WithoutStdIn(chunks[1..])
  }

  lemma {:induction false} EchoFreeBytes(chunks: seq<Chunk>, ch: Channel)
    requires ch != InChannel
    ensures ChannelBytes(WithoutStdIn(chunks), ch) == ChannelBytes(chunks, ch)
  {
    if chunks != [] {
      EchoFreeBytes(chunks[1..], ch);
      if !chunks[0].StdIn? {
        var rest := WithoutStdIn(chunks[1..]);
        assert ([chunks[0]] + rest)[0] == chunks[0];
        assert ([chunks[0]] + rest)[1..] == rest;
      }
    }
  }

  /** Text written to both channels comes back unchanged: whatever the
      interleaving, if the stdout and stderr bytes are the encodings of two
      strings, `convert_chunks` returns exactly those strings. */
  lemma ConvertChunksOfText(chunks: seq<Chunk>, out: string, err: string)
    requires ChannelBytes(chunks, OutChannel) == Encode(out)
    requires ChannelBytes(chunks, ErrChannel) == Encode(err)
    ensures ConvertChunks(chunks) == Success(RunOutput(out, err))
  {
    DecodeEncode(out);
    DecodeEncode(err);
  }
}

=== FILE: paths.dfy ===
/** The part of Rust's `std::path` that staging a code file relies on, with
    Unix conventions: a path is a string, `/` is the only separator, and
    `display()` shows the path unchanged. */
module Paths {
  import opened Wrappers

  type Path = string

  const Separator: char := '/'

  /** Index just past the last separator of `p` (0 when it has none): where the
      final, possibly empty, component of `p` begins. */
  function ComponentStart(p: Path): (i: nat)
    ensures i <= |p|
    ensures forall k :: i <= k < |p| ==> p[k] != Separator
    ensures i > 0 ==> p[i - 1] == Separator
  {
    if p == [] || p[|p| - 1] == Separator then |p|
    else ComponentStart(p[..|p| - 1])
  }

  /** `p[i..]` is the component `.` */
  predicate IsCurDir(p: Path, i: nat)
    requires i <= |p|
  {
    |p| - i == 1 && p[i] == '.'
  }

  /** `p[i..]` is the component `..` */
  predicate IsParentDir(p: Path, i: nat)
    requires i <= |p|
  {
    |p| - i == 2 && p[i] == '.' && p[i + 1] == '.'
  }

  /** The prefix of `p` that ends with its file name. Like the backward
      component parse of `Path::components`, trailing separators and `.`
      components are skipped; there is no file name when what is left ends
      in no normal component (the empty path, the root, `.` or `..`). */
  function NameTrunk(p: Path): (t: Option<Path>)
    ensures t.Some? ==> |t.value| <= |p| && t.value == p[..|t.value|]
    ensures t.Some? ==> ComponentStart(t.value) < |t.value|
    decreases |p|
  {
    if p == [] then None
    else if p[|p| - 1] == Separator then NameTrunk(p[..|p| - 1])
    else
      var i := ComponentStart(p);
      if IsCurDir(p, i) then (if i == 0 then None else NameTrunk(p[..i - 1]))
      else if IsParentDir(p, i) then None
      else Some(p)
  }

  /** A single normal component: what `file_name` can return. */
  predicate IsName(n: string) {
    && n != []
    && !IsCurDir(n, 0)
    && !IsParentDir(n, 0)
    && forall k :: 0 <= k < |n| ==> n[k] != Separator
  }

  /** `Path::file_name`. */
  function FileName(p: Path): (n: Option<string>)
    ensures n.Some? ==> IsName(n.value)
  {
    match NameTrunk(p)
    case None => None
    case Some(t) => NameTrunkIsName(p); Some(t[ComponentStart(t)..])
  }

  lemma NameTrunkIsName(p: Path)
    requires NameTrunk(p).Some?
    ensures var t := NameTrunk(p).value; IsName(t[ComponentStart(t)..])
    decreases |p|
  {
    if p[|p| - 1] == Separator {
      NameTrunkIsName(p[..|p| - 1]);
    } else {
      var i := ComponentStart(p);
      if IsCurDir(p, i) {
        NameTrunkIsName(p[..i - 1]);
      }
    }
  }

  /** Index of the last `.` in `n`, if any. */
  function LastDot(n: string): (k: Option<nat>)
    ensures k.Some? ==> k.value < |n| && n[k.value] == '.'
    ensures k.Some? ==> forall j :: k.value < j < |n| ==> n[j] != '.'
    ensures k.None? ==> forall j :: 0 <= j < |n| ==> n[j] != '.'
  {
    if n == [] then None
    else if n[|n| - 1] == '.' then Some(|n| - 1)
    else LastDot(n[..|n| - 1])
  }

  /** The stem of a file name, as `rsplit_file_at_dot` cuts it: everything
      before the last `.`, unless there is no `.` or the only one opens the
      name, in which case the whole name. */
  function Stem(n: string): (s: string)
    ensures |s| <= |n| && s == n[..|s|]
    ensures IsName(n) ==> s != []
  {
    if IsParentDir(n, 0) then n
    else match LastDot(n)
      case Some(k) => if k > 0 then n[..k] else n
      case None => n
  }

  /** `Path::file_stem`: the file name up to its last `.`; the whole name
      when it has no `.` after its first character. */
  function FileStem(p: Path): (s: Option<string>)
    ensures s.Some? ==> s.value != [] && forall k :: 0 <= k < |s.value| ==> s.value[k] != Separator
    ensures s.Some? <==> FileName(p).Some?
    ensures s.Some? ==> var n := FileName(p).value;
      && |s.value| <= |n| && s.value == n[..|s.value|]
      && (s.value == n <==> forall j :: 0 < j < |n| ==> n[j] != '.')
      && (s.value != n ==>
            && 0 < |s.value| < |n|
            && n[|s.value|] == '.'
            && forall j :: |s.value| < j < |n| ==> n[j] != '.')
  {
    match FileName(p)
    case None => None
    case Some(n) => Some(Stem(n))
  }

  /** The text `set_extension` appends: nothing for an empty extension. */
  function Dotted(ext: string): string {
    if ext == [] then [] else ['.'] + ext
  }

  /** `Path::with_extension`: cut the path right after the stem of its file
      name and append the extension; a path without a file name is returned
      as it is. */
  function WithExtension(p: Path, ext: string): (q: Path)
  {
    match NameTrunk(p)
    case None => p
    case Some(t) =>
      var i := ComponentStart(t);
      t[..i] + Stem(t[i..]) + Dotted(ext)
  }

  /** `Path::join` (`PathBuf::push`): an absolute component replaces the
      base; otherwise a separator is inserted unless the base is empty or
      already ends with one. */
  function Join(base: Path, comp: Path): (r: Path)
  {
    if |comp| > 0 && comp[0] == Separator then comp
    else if |base| > 0 && base[|base| - 1] != Separator then base + [Separator] + comp
    else base + comp
  }

  /** The directory part `Join` puts in front of a relative component. */
  function JoinPrefix(base: Path): (pre: Path)
    ensures pre == [] || pre[|pre| - 1] == Separator
  {
    if |base| > 0 && base[|base| - 1] != Separator then base + [Separator] else base
  }

  lemma JoinRelative(base: Path, comp: Path)
    requires comp == [] || comp[0] != Separator
    ensures Join(base, comp) == JoinPrefix(base) + comp
  {
  }

  /** If no separator follows index `i` of `p` and a separator (or the
      start) precedes it, the final component starts at `i`. */
  lemma {:induction false} CutAtComponentStart(p: Path, i: nat)
    requires i <= |p|
    requires forall k :: i <= k < |p| ==> p[k] != Separator
    requires i > 0 ==> p[i - 1] == Separator
    ensures ComponentStart(p) == i
    decreases |p|
  {
    if p == [] || p[|p| - 1] == Separator {
    } else {
      CutAtComponentStart(p[..|p| - 1], i);
    }
  }

  /** A path ending in a normal component is its own trunk. */
  lemma TrunkIsWhole(p: Path)
    requires p != [] && p[|p| - 1] != Separator
    requires !IsCurDir(p, ComponentStart(p)) && !IsParentDir(p, ComponentStart(p))
    ensures NameTrunk(p) == Some(p)
  {
  }

  lemma TrunkWithExtension(p: Path, ext: string, i: nat, n: string)
    requires NameTrunk(p) == Some(p)
    requires i == ComponentStart(p) && p[i..] == n
    ensures WithExtension(p, ext) == p[..i] + Stem(n) + Dotted(ext)
  {
  }

  /** A bare name placed after a directory part (empty, or ending with a
      separator) is the file name of the result, and changing the result's
      extension changes only that name. */
  lemma NameAfterDirectory(pre: Path, n: string, ext: string)
    requires IsName(n)
    requires pre == [] || pre[|pre| - 1] == Separator
    ensures NameTrunk(pre + n) == Some(pre + n)
    ensures FileName(pre + n) == Some(n)
    ensures WithExtension(pre + n, ext) == pre + Stem(n) + Dotted(ext)
  {
    NameStartsAfterDirectory(pre, n);
    TrunkIsWhole(pre + n);
    DirectoryPart(pre, n);
    TrunkWithExtension(pre + n, ext, |pre|, n);
  }

  lemma NameStartsAfterDirectory(pre: Path, n: string)
    requires IsName(n)
    requires pre == [] || pre[|pre| - 1] == Separator
    ensures ComponentStart(pre + n) == |pre|
    ensures (pre + n)[|pre|..] == n
  {
    assert (pre + n)[|pre|..] == n;
    CutAtComponentStart(pre + n, |pre|);
  }

  lemma DirectoryPart(pre: Path, n: string)
    ensures (pre + n)[..|pre|] == pre
  {
  }

  /** On a bare name `with_extension` replaces what follows the stem. */
  lemma WithExtensionOfName(n: string, ext: string)
    requires IsName(n)
    ensures FileName(n) == Some(n)
    ensures WithExtension(n, ext) == Stem(n) + Dotted(ext)
  {
    CutAtComponentStart(n, 0);
    assert n[0..] == n;
    TrunkIsWhole(n);
    TrunkWithExtension(n, ext, 0, n);
    assert n[..0] + Stem(n) == Stem(n);
  }

  /** A path whose last component is `..` has no file name, so
      `with_extension` leaves it alone. */
  lemma ParentAfterDirectory(pre: Path, ext: string)
    requires pre == [] || pre[|pre| - 1] == Separator
    ensures FileName(pre + "..") == None
    ensures WithExtension(pre + "..", ext) == pre + ".."
  {
    var j := pre + "..";
    CutAtComponentStart(j, |pre|);
  }

  /** Changing the extension of a bare name commutes with joining it onto a
      base directory: the result stays inside the base. */
  lemma NameUnderJoin(base: Path, n: string, ext: string)
    requires IsName(n)
    ensures WithExtension(Join(base, n), ext) == Join(base, WithExtension(n, ext))
  {
    var pre := JoinPrefix(base);
    var s, d := Stem(n), Dotted(ext);
    JoinRelative(base, n);
    NameAfterDirectory(pre, n, ext);
    WithExtensionOfName(n, ext);
    assert s[0] == n[0];
    JoinRelative(base, s + d);
    assert pre + s + d == pre + (s + d);
  }

  /** `..` has no file name either on its own or joined onto a base, so
      neither side changes. */
  lemma ParentUnderJoin(base: Path, ext: string)
    ensures WithExtension("..", ext) == ".."
    ensures WithExtension(Join(base, ".."), ext) == Join(base, "..")
  {
    JoinRelative(base, "..");
    ParentAfterDirectory(JoinPrefix(base), ext);
    ParentAfterDirectory([], ext);
    assert [] + ".." == "..";
  }

  /** Joining `.` onto a base that ends in a normal component adds no file
      name of its own: the result's file name, and so the component
      `with_extension` rewrites, is the base's own last component. */
  lemma CurDirUnderJoin(base: Path, ext: string)
    requires NameTrunk(base) == Some(base)
    ensures NameTrunk(Join(base, ".")) == Some(base)
    ensures WithExtension(Join(base, "."), ext) == WithExtension(base, ext)
  {
    var j := Join(base, ".");
    assert j == base + [Separator] + ".";
    CutAtComponentStart(j, |j| - 1);
    assert j[..|j| - 2] == base;
  }
}

=== FILE: sandbox.dfy ===
/** `DockerSandbox::run_code` of `src/sandbox.rs`: stage the code file in a
    fresh temporary directory, build it if the language has a compiler, then
    run it, stopping at the first error. The temporary directory, the file
    copy and each container execution come from outside; they are given as
    oracles, and the model records the order in which `run_code` asks for
    them. */
module Sandbox {
  import opened Wrappers
  import opened Paths
  import opened Languages
  import opened SandboxErrors
  import opened Staging
  import opened Output
  import opened Utf8

  /** A constructed sandbox. The Docker client handle is not modelled; what
      remains is the tag of the image every container is created from. */
  datatype DockerSandbox = DockerSandbox(imageTag: string)

  /** The outside world as `run_code` sees it.
      - `tempDir`: the outcome of `TempDir::new`.
      - `copyFile`: the outcome of `fs::copy(src, dest)`.
      - `container`: the outcome of `exec_container` up to and including the
        removal of the container (create, start, attach, write stdin, wait,
        drain the output, remove), given the staging directory, the image
        tag, the command and the stdin payload: either the drained chunks or
        the lifecycle error. */
  datatype Host = Host(
    tempDir: Result<Path, IoError>,
    copyFile: (Path, Path) -> Outcome<IoError>,
    container: (Path, string, seq<string>, Option<string>) -> Result<seq<Chunk>, SandboxError>)

  /** The requests `run_code` makes of the outside world. */
  datatype Action =
    | MakeTempDir
    | Copy(src: Path, dest: Path)
    | Exec(cmd: seq<string>, stdin: Option<string>)

  /** What a call of `run_code` returns, with the requests it made. */
  datatype Run = Run(result: Result<RunOutput, SandboxError>, actions: seq<Action>)

  /** `exec_container`: the container lifecycle, then `convert_chunks` on
      what it drained. */
  function ExecContainer(host: Host, tempDir: Path, imageTag: string, cmd: seq<string>, stdin: Option<string>)
    : Result<RunOutput, SandboxError>
  {
    match host.container(tempDir, imageTag, cmd, stdin)
    case Failure(e) => Failure(e)
    case Success(chunks) => ConvertChunks(chunks)
  }

  /** Whether a request succeeds, and with which error it fails. */
  function Effect(sandbox: DockerSandbox, host: Host, tempDir: Path, a: Action): Outcome<SandboxError>
  {
    match a
    case MakeTempDir =>
      if host.tempDir.Failure? then Fail(CreateTempDirectory(host.tempDir.error)) else Pass
    case Copy(src, dest) =>
      if host.copyFile(src, dest).Fail? then Fail(CopyCodeFile(src, dest, host.copyFile(src, dest).error)) else Pass
    case Exec(cmd, stdin) =>
      var r := ExecContainer(host, tempDir, sandbox.imageTag, cmd, stdin);
      if r.Failure? then Fail(r.error) else Pass
  }

  /** The container executions of a run in which nothing fails: the build
      (only when there is a build command, and without stdin), then the run
      (with the caller's stdin). */
  function ExecPlan(cmds: Commands, stdin: Option<string>): seq<Action>
  {
    (if cmds.buildCmd == [] then [] else [Exec(cmds.buildCmd, None)]) + [Exec(cmds.runCmd, stdin)]
  }

  /** `r` is what running `plan` up to its first failure gives: the
      requests made are a non-empty prefix of the plan, every request but
      the last succeeded, the run fails exactly when the last request
      failed and then with that request's error, and a successful run made
      every planned request. */
  predicate FollowsPlan(sandbox: DockerSandbox, host: Host, tempDir: Path, r: Run, plan: seq<Action>) {
    && 1 <= |r.actions| <= |plan|
    && r.actions == plan[..|r.actions|]
    && (forall i :: 0 <= i < |r.actions| - 1 ==> Effect(sandbox, host, tempDir, r.actions[i]).Pass?)
    && (r.result.Failure? <==> Effect(sandbox, host, tempDir, r.actions[|r.actions| - 1]).Fail?)
    && (r.result.Failure? ==> r.result.error == Effect(sandbox, host, tempDir, r.actions[|r.actions| - 1]).error)
    && (r.result.Success? ==> r.actions == plan)
  }

  /** A request that succeeds, followed by a run that follows `plan`,
      follows the plan that starts with that request. */
  lemma PassThenFollow(sandbox: DockerSandbox, host: Host, tempDir: Path, a: Action, rest: Run, plan: seq<Action>)
    requires Effect(sandbox, host, tempDir, a).Pass?
    requires FollowsPlan(sandbox, host, tempDir, rest, plan)
    ensures FollowsPlan(sandbox, host, tempDir, Run(rest.result, [a] + rest.actions), [a] + plan)
  {
    var actions := [a] + rest.actions;
    assert actions == ([a] + plan)[..|actions|];
    forall i | 0 <= i < |actions| - 1
      ensures Effect(sandbox, host, tempDir, actions[i]).Pass?
    {
      if i > 0 {
        assert actions[i] == rest.actions[i - 1];
      }
    }
    assert actions[|actions| - 1] == rest.actions[|rest.actions| - 1];
  }

  /** Lines 146-164 of `run_code`: build if there is a build command, then
      run. The executions follow the plan until the first one that fails;
      a successful result is the output of the run command. */
  function BuildAndRun(sandbox: DockerSandbox, host: Host, tempDir: Path, cmds: Commands, stdin: Option<string>)
    : (r: Run)
    ensures FollowsPlan(sandbox, host, tempDir, r, ExecPlan(cmds, stdin))
    ensures r.result.Success? ==> r.result == ExecContainer(host, tempDir, sandbox.imageTag, cmds.runCmd, stdin)
  {
    var run := Exec(cmds.runCmd, stdin);
    var output := ExecContainer(host, tempDir, sandbox.imageTag, cmds.runCmd, stdin);
    if cmds.buildCmd == [] then
      Run(output, [run])
    else
      var build := ExecContainer(host, tempDir, sandbox.imageTag, cmds.buildCmd, None);
      if build.Failure? then Run(Failure(build.error), [Exec(cmds.buildCmd, None)])
      else Run(output, [Exec(cmds.buildCmd, None), run])
  }

  /** The requests after staging, when nothing fails: copy the code file to
      the staged host path, then build and run. */
  function CopyPlan(codeFile: Path, files: SandboxFiles, cmds: Commands, stdin: Option<string>): seq<Action> {
    [Copy(codeFile, files.hostSrc)] + ExecPlan(cmds, stdin)
  }

  /** Lines 145-164 of `run_code`: copy the code file in (a failure is a
      `CopyCodeFile` error naming both paths), then build and run. */
  function CopyAndRun(sandbox: DockerSandbox, host: Host, tempDir: Path, codeFile: Path, files: SandboxFiles,
                      cmds: Commands, stdin: Option<string>): (r: Run)
    ensures FollowsPlan(sandbox, host, tempDir, r, CopyPlan(codeFile, files, cmds, stdin))
    ensures r.result.Success? ==> r.result == ExecContainer(host, tempDir, sandbox.imageTag, cmds.runCmd, stdin)
  {
    match host.copyFile(codeFile, files.hostSrc)
    case Fail(e) => Run(Failure(CopyCodeFile(codeFile, files.hostSrc, e)), [Copy(codeFile, files.hostSrc)])
    case Pass =>
      var rest := BuildAndRun(sandbox, host, tempDir, cmds, stdin);
      PassThenFollow(sandbox, host, tempDir, Copy(codeFile, files.hostSrc), rest, ExecPlan(cmds, stdin));
      Run(rest.result, [Copy(codeFile, files.hostSrc)] + rest.actions)
  }

  /** The staging directory `run_code` works in, when there is one. */
  function WorkDir(host: Host): Path {
    if host.tempDir.Success? then host.tempDir.value else []
  }

  /** Whether `run_code` gets past staging: the directory exists and the
      code file has a stem. */
  predicate Stages(host: Host, codeFile: Path) {
    host.tempDir.Success? && FileStem(codeFile).Some?
  }

  /** The requests of a `run_code` call in which nothing fails: create the
      staging directory, copy the code file in, build (if the language
      compiles) and run. When staging cannot go further than creating the
      directory, that is all. */
  function RunPlan(host: Host, codeFile: Path, lang: Language, stdin: Option<string>): seq<Action> {
    if !Stages(host, codeFile) then [MakeTempDir]
    else
      var files := GetSandboxFiles(codeFile, lang, host.tempDir.value).value;
      [MakeTempDir] + CopyPlan(codeFile, files, GetCommands(files, lang), stdin)
  }

  /** The command of the run container for a staged code file. */
  function RunCommand(host: Host, codeFile: Path, lang: Language): seq<string>
    requires Stages(host, codeFile)
  {
    GetCommands(GetSandboxFiles(codeFile, lang, host.tempDir.value).value, lang).runCmd
  }

  /** `run_code`: create the staging directory, derive the staged files,
      copy the code file in, then build and run, stopping at the first
      failure. A code file without a stem fails with `InvalidCodeFile`
      after the directory was created and before anything else is
      requested. A successful result is the output of the run container. */
  function RunCode(sandbox: DockerSandbox, host: Host, codeFile: Path, lang: Language, stdin: Option<string>)
    : (r: Run)
    ensures host.tempDir.Success? && FileStem(codeFile).None? ==>
      r == Run(Failure(InvalidCodeFile(codeFile)), [MakeTempDir])
    ensures host.tempDir.Failure? || FileStem(codeFile).Some? ==>
      FollowsPlan(sandbox, host, WorkDir(host), r, RunPlan(host, codeFile, lang, stdin))
    ensures r.result.Success? ==>
      && Stages(host, codeFile)
      && r.result == ExecContainer(host, host.tempDir.value, sandbox.imageTag, RunCommand(host, codeFile, lang), stdin)
    ensures Stages(host, codeFile) ==>
      var files := GetSandboxFiles(codeFile, lang, host.tempDir.value).value;
      |r.actions| >= 2 && r.actions[1] == Copy(codeFile, files.hostSrc)
  {
    match host.tempDir
    case Failure(e) => Run(Failure(CreateTempDirectory(e)), [MakeTempDir])
    case Success(tempDir) =>
      match GetSandboxFiles(codeFile, lang, tempDir)
      case Failure(e) => Run(Failure(e), [MakeTempDir])
      case Success(files) =>
        var cmds := GetCommands(files, lang);
        var rest := CopyAndRun(sandbox, host, tempDir, codeFile, files, cmds, stdin);
        PassThenFollow(sandbox, host, tempDir, MakeTempDir, rest, CopyPlan(codeFile, files, cmds, stdin));
        Run(rest.result, [MakeTempDir] + rest.actions)
  }

  /** `run_code` exactly as written: the same sequence, with the code file
      copied to the host path `get_sandbox_files` computes as written (see
      `Staging.GetSandboxFilesAsWritten`). The requests follow the plan
      "create the staging directory, copy, build, run" up to the first
      failure, whose error is the result; a code file without a stem fails
      with `InvalidCodeFile` right after the directory was created; a
      successful result is the output of the run container. */
  function RunCodeAsWritten(sandbox: DockerSandbox, host: Host, codeFile: Path, lang: Language, stdin: Option<string>)
    : (r: Run)
    ensures |r.actions| >= 1 && r.actions[0] == MakeTempDir
    ensures host.tempDir.Failure? ==>
      r == Run(Failure(CreateTempDirectory(host.tempDir.error)), [MakeTempDir])
    ensures host.tempDir.Success? && FileStem(codeFile).None? ==>
      r == Run(Failure(InvalidCodeFile(codeFile)), [MakeTempDir])
    ensures Stages(host, codeFile) ==>
      var files := GetSandboxFilesAsWritten(codeFile, lang, host.tempDir.value).value;
      var cmds := GetCommands(files, lang);
      && FollowsPlan(sandbox, host, host.tempDir.value, r, [MakeTempDir] + CopyPlan(codeFile, files, cmds, stdin))
      && (r.result.Success? ==> r.result == ExecContainer(host, host.tempDir.value, sandbox.imageTag, cmds.runCmd, stdin))
      && |r.actions| >= 2 && r.actions[1] == Copy(codeFile, files.hostSrc)
  {
    match host.tempDir
    case Failure(e) => Run(Failure(CreateTempDirectory(e)), [MakeTempDir])
    case Success(tempDir) =>
      match GetSandboxFilesAsWritten(codeFile, lang, tempDir)
      case Failure(e) => Run(Failure(e), [MakeTempDir])
      case Success(files) =>
        var cmds := GetCommands(files, lang);
        var rest := CopyAndRun(sandbox, host, tempDir, codeFile, files, cmds, stdin);
        PassThenFollow(sandbox, host, tempDir, MakeTempDir, rest, CopyPlan(codeFile, files, cmds, stdin));
        Run(rest.result, [MakeTempDir] + rest.actions)
  }

  /** The code as written and the corrected model make the same requests and
      return the same result for every code file whose stem is not `.`. */
  lemma AsWrittenRunAgreesUnlessDotStem(sandbox: DockerSandbox, host: Host, codeFile: Path, lang: Language,
                                        stdin: Option<string>)
    requires FileStem(codeFile) != Some(".")
    ensures RunCodeAsWritten(sandbox, host, codeFile, lang, stdin) == RunCode(sandbox, host, codeFile, lang, stdin)
  {
    if host.tempDir.Success? {
      AsWrittenAgreesUnlessDotStem(codeFile, lang, host.tempDir.value);
    }
  }

  /** For the code file `..py` in staging directory `/tmp/abc`, the code as
      written copies to `/tmp/abc.py`, outside the staging directory. The
      corrected model's copy request names `/tmp/abc` joined with `.`, that
      is the staging directory itself, which is what `python .` is pointed
      at. The correction only keeps the write from landing outside the
      directory; for a stem of `.` neither version stages a runnable file. */
  lemma DotStemRunCopiesOutside(sandbox: DockerSandbox, host: Host, stdin: Option<string>)
    requires host.tempDir == Success("/tmp/abc")
    ensures RunCodeAsWritten(sandbox, host, "..py", Python, stdin).actions[1] == Copy("..py", "/tmp/abc.py")
    ensures RunCode(sandbox, host, "..py", Python, stdin).actions[1] == Copy("..py", Join("/tmp/abc", "."))
  {
    DotStemStagesOutside();
    DotNamesKeepExtension("py");
  }

  /** No container is executed unless the staging directory exists, the
      code file has a stem and its copy succeeded; execution requests come
      only after the copy. */
  lemma NoContainerBeforeStaging(sandbox: DockerSandbox, host: Host, codeFile: Path, lang: Language,
                                 stdin: Option<string>, i: nat)
    requires i < |RunCode(sandbox, host, codeFile, lang, stdin).actions|
    requires RunCode(sandbox, host, codeFile, lang, stdin).actions[i].Exec?
    ensures host.tempDir.Success? && FileStem(codeFile).Some? && i >= 2
    ensures var files := GetSandboxFiles(codeFile, lang, host.tempDir.value).value;
      host.copyFile(codeFile, files.hostSrc).Pass?
  {
  }

  /** Python has no compiler: the only container `run_code` starts is the
      `python` run of the staged file, with the caller's stdin. */
  lemma PythonNeverBuilds(sandbox: DockerSandbox, host: Host, codeFile: Path, stdin: Option<string>, i: nat)
    requires i < |RunCode(sandbox, host, codeFile, Python, stdin).actions|
    requires RunCode(sandbox, host, codeFile, Python, stdin).actions[i].Exec?
    ensures var files := GetSandboxFiles(codeFile, Python, host.tempDir.value).value;
      RunCode(sandbox, host, codeFile, Python, stdin).actions[i] == Exec(["python", files.containerSrc], stdin)
  {
    NoContainerBeforeStaging(sandbox, host, codeFile, Python, stdin, i);
    var tempDir := host.tempDir.value;
    var files := GetSandboxFiles(codeFile, Python, tempDir).value;
    PythonRunsItsSource(codeFile, tempDir);
    var cmds := GetCommands(files, Python);
    var rest := BuildAndRun(sandbox, host, tempDir, cmds, stdin);
    assert rest.actions == [Exec(["python", files.containerSrc], stdin)];
    var actions := RunCode(sandbox, host, codeFile, Python, stdin).actions;
    assert actions == [MakeTempDir, Copy(codeFile, files.hostSrc)] + rest.actions;
    assert i == 2 && actions[2] == rest.actions[0];
  }

  /** For Java the first container runs `javac` on the staged source
      (without stdin), and `java` is only started after the build container
      returned without error. Its exit status is not checked, so a program
      that does not compile still reaches `java`. */
  lemma JavaBuildsBeforeRunning(sandbox: DockerSandbox, host: Host, codeFile: Path, stdin: Option<string>, i: nat)
    requires i < |RunCode(sandbox, host, codeFile, Java, stdin).actions|
    requires RunCode(sandbox, host, codeFile, Java, stdin).actions[i].Exec?
    ensures var tempDir := host.tempDir.value;
      var files := GetSandboxFiles(codeFile, Java, tempDir).value;
      var actions := RunCode(sandbox, host, codeFile, Java, stdin).actions;
      && actions[2] == Exec(["javac", files.containerSrc], None)
      && (i > 2 ==> actions[i] == Exec(["java", files.containerBin], stdin))
      && (i > 2 ==> Effect(sandbox, host, tempDir, actions[2]).Pass?)
  {
    NoContainerBeforeStaging(sandbox, host, codeFile, Java, stdin, i);
  }

  /** A build container that returns an error (a container lifecycle or
      UTF-8 error; the compiler's exit status is not checked) ends the run:
      that error is the result and the run command is never executed. */
  lemma FailedBuildNeverRuns(sandbox: DockerSandbox, host: Host, codeFile: Path, lang: Language, stdin: Option<string>)
    requires host.tempDir.Success? && FileStem(codeFile).Some?
    requires var files := GetSandboxFiles(codeFile, lang, host.tempDir.value).value;
      var cmds := GetCommands(files, lang);
      && host.copyFile(codeFile, files.hostSrc).Pass?
      && cmds.buildCmd != []
      && ExecContainer(host, host.tempDir.value, sandbox.imageTag, cmds.buildCmd, None).Failure?
    ensures var files := GetSandboxFiles(codeFile, lang, host.tempDir.value).value;
      var cmds := GetCommands(files, lang);
      var r := RunCode(sandbox, host, codeFile, lang, stdin);
      && r.result == ExecContainer(host, host.tempDir.value, sandbox.imageTag, cmds.buildCmd, None)
      && r.actions == [MakeTempDir, Copy(codeFile, files.hostSrc), Exec(cmds.buildCmd, None)]
      && forall a :: a in r.actions ==> a != Exec(cmds.runCmd, stdin)
  {
    var tempDir := host.tempDir.value;
    var files := GetSandboxFiles(codeFile, lang, tempDir).value;
    var cmds := GetCommands(files, lang);
    var build := ExecContainer(host, tempDir, sandbox.imageTag, cmds.buildCmd, None);
    var rest := BuildAndRun(sandbox, host, tempDir, cmds, stdin);
    assert rest == Run(Failure(build.error), [Exec(cmds.buildCmd, None)]);
    var copied := CopyAndRun(sandbox, host, tempDir, codeFile, files, cmds, stdin);
    assert copied == Run(rest.result, [Copy(codeFile, files.hostSrc)] + rest.actions);
    assert RunCode(sandbox, host, codeFile, lang, stdin) == Run(copied.result, [MakeTempDir] + copied.actions);
    // Only Java has a build command, and `java` is not `javac`.
    assert lang == Java && cmds.runCmd[0] == "java" && cmds.buildCmd[0] == "javac";
    assert cmds.runCmd != cmds.buildCmd;
  }

  /** A successful run returns the text the program wrote: the run
      container's stdout and stderr chunks, decoded. */
  lemma SuccessIsTheProgramsText(sandbox: DockerSandbox, host: Host, codeFile: Path, lang: Language, stdin: Option<string>)
    requires RunCode(sandbox, host, codeFile, lang, stdin).result.Success?
    ensures var out := RunCode(sandbox, host, codeFile, lang, stdin).result.value;
      var tempDir := host.tempDir.value;
      var files := GetSandboxFiles(codeFile, lang, tempDir).value;
      var drained := host.container(tempDir, sandbox.imageTag, GetCommands(files, lang).runCmd, stdin);
      && drained.Success?
      && Encode(out.stdout) == ChannelBytes(drained.value, OutChannel)
      && Encode(out.stderr) == ChannelBytes(drained.value, ErrChannel)
  {
  }
}

=== FILE: staging.dfy ===
/** Where `run_code` stages a code file and which commands it issues for it:
    `get_sandbox_files`, `get_commands`, `get_build_cmd` and `get_run_cmd` of
    `src/sandbox.rs`. */
module Staging {
  import opened Wrappers
  import opened Paths
  import opened Languages
  import opened SandboxErrors

  /** The staged source on the host, and the source and runnable file as the
      container sees them, relative to its working directory (the mount
      point of the staging directory). */
  datatype SandboxFiles = SandboxFiles(hostSrc: Path, containerSrc: Path, containerBin: Path)

  datatype Commands = Commands(buildCmd: seq<string>, runCmd: seq<string>)

  /** A file stem is a bare name, or one of the two dot-only names a stem
      can still be (`..x` has stem `.`, `...` has stem `..`). */
  lemma StemShapes(p: Path)
    requires FileStem(p).Some?
    ensures var base := FileStem(p).value; IsName(base) || base == "." || base == ".."
  {
    var base := FileStem(p).value;
    if !IsName(base) {
      if IsCurDir(base, 0) {
        assert base == [base[0]];
      } else {
        assert base == [base[0], base[1]];
      }
    }
  }

  /** `.` and `..` have no file name, so `with_extension` keeps them. */
  lemma DotNamesKeepExtension(ext: string)
    ensures WithExtension(".", ext) == "."
    ensures WithExtension("..", ext) == ".."
  {
    CutAtComponentStart(".", 0);
    CutAtComponentStart("..", 0);
  }

  /** `get_sandbox_files` exactly as written: the host copy is
      `temp_dir.join(stem).with_extension(source_ext)`. When the stem is `.`
      this renames the staging directory itself instead of naming a file in
      it (see `DotStemStagesOutside`); `GetSandboxFiles` is the corrected
      definition the rest of the model uses. */
  function GetSandboxFilesAsWritten(codeFile: Path, lang: Language, tempDir: Path): (r: Result<SandboxFiles, SandboxError>)
    ensures r.Failure? <==> FileStem(codeFile).None?
    ensures r.Failure? ==> r.error == InvalidCodeFile(codeFile)
  {
    match FileStem(codeFile)
    case None => Failure(InvalidCodeFile(codeFile))
    case Some(base) =>
      Success(SandboxFiles(
        WithExtension(Join(tempDir, base), SourceExtension(lang)),
        WithExtension(base, SourceExtension(lang)),
        WithExtension(base, CompiledExtension(lang))))
  }

  /** `get_sandbox_files`, with the host copy placed at the staging
      directory joined with the container-side source name, the path the
      container is told to use. */
  function GetSandboxFiles(codeFile: Path, lang: Language, tempDir: Path): (r: Result<SandboxFiles, SandboxError>)
    ensures r.Failure? <==> FileStem(codeFile).None?
    ensures r.Failure? ==> r.error == InvalidCodeFile(codeFile)
    ensures r.Success? ==> r.value.hostSrc == Join(tempDir, r.value.containerSrc)
    ensures r.Success? ==> r.value.containerSrc != [] && r.value.containerBin != []
    ensures r.Success? ==> forall k :: 0 <= k < |r.value.containerSrc| ==> r.value.containerSrc[k] != Separator
    ensures r.Success? ==> forall k :: 0 <= k < |r.value.containerBin| ==> r.value.containerBin[k] != Separator
  {
    match FileStem(codeFile)
    case None => Failure(InvalidCodeFile(codeFile))
    case Some(base) =>
      var containerSrc := WithExtension(base, SourceExtension(lang));
      var containerBin := WithExtension(base, CompiledExtension(lang));
      StagedNamesAreNames(codeFile, lang);
      Success(SandboxFiles(Join(tempDir, containerSrc), containerSrc, containerBin))
  }

  /** The container-side names are single, non-empty components: the stem
      with its last extension replaced, or the stem itself when it is `.`
      or `..`. */
  lemma StagedNamesAreNames(codeFile: Path, lang: Language)
    requires FileStem(codeFile).Some?
    ensures var base := FileStem(codeFile).value;
      && StagedName(base, SourceExtension(lang))
      && StagedName(base, CompiledExtension(lang))
  {
    var base := FileStem(codeFile).value;
    StemShapes(codeFile);
    if IsName(base) {
      NameStagesAsName(base, SourceExtension(lang));
      NameStagesAsName(base, CompiledExtension(lang));
    } else {
      DotNamesKeepExtension(SourceExtension(lang));
      DotNamesKeepExtension(CompiledExtension(lang));
    }
  }

  lemma NameStagesAsName(base: string, ext: string)
    requires IsName(base)
    requires ext == [] || IsExtension(ext)
    ensures StagedName(base, ext)
  {
    WithExtensionOfName(base, ext);
    var stem, dotted := Stem(base), Dotted(ext);
    assert stem[0] == base[0];
    forall k | 0 <= k < |stem|
      ensures stem[k] != Separator
    {
      assert stem[k] == base[k];
    }
    assert forall k :: 0 <= k < |dotted| ==> dotted[k] != Separator;
    var n := stem + dotted;
    forall k | 0 <= k < |n|
      ensures n[k] != Separator
    {
      if k < |stem| { assert n[k] == stem[k]; } else { assert n[k] == dotted[k - |stem|]; }
    }
  }

  /** `base` with extension `ext` is a non-empty name without separators. */
  predicate StagedName(base: string, ext: string) {
    var n := WithExtension(base, ext);
    n != [] && forall k :: 0 <= k < |n| ==> n[k] != Separator
  }

  /** `get_commands`: build the container-side source, run the container-side
      runnable file. */
  function GetCommands(files: SandboxFiles, lang: Language): (c: Commands)
    ensures c.buildCmd == [] <==> Compiler(lang).None?
    ensures c.buildCmd != [] ==> c.buildCmd == [Compiler(lang).value, files.containerSrc]
    ensures c.runCmd == [Runner(lang), files.containerBin]
  {
    Commands(BuildCmd(files.containerSrc, lang), RunCmd(files.containerBin, lang))
  }

  /** What the staged names are: the stem with its last extension replaced
      by the language's source (resp. compiled) extension; a stem of `.` or
      `..` is used as it is. */
  lemma StagedFileNames(codeFile: Path, lang: Language, tempDir: Path)
    requires GetSandboxFiles(codeFile, lang, tempDir).Success?
    ensures var files := GetSandboxFiles(codeFile, lang, tempDir).value;
      var base := FileStem(codeFile).value;
      && (IsName(base) ==> files.containerSrc == Stem(base) + "." + SourceExtension(lang))
      && (IsName(base) ==> files.containerBin == Stem(base) + Dotted(CompiledExtension(lang)))
      && (!IsName(base) ==> files.containerSrc == base && files.containerBin == base)
  {
    var base := FileStem(codeFile).value;
    var files := GetSandboxFiles(codeFile, lang, tempDir).value;
    assert files.containerSrc == WithExtension(base, SourceExtension(lang));
    assert files.containerBin == WithExtension(base, CompiledExtension(lang));
    StemShapes(codeFile);
    if IsName(base) {
      WithExtensionOfName(base, SourceExtension(lang));
      WithExtensionOfName(base, CompiledExtension(lang));
      DottedExtension(Stem(base), SourceExtension(lang));
    } else {
      DotNamesKeepExtension(SourceExtension(lang));
      DotNamesKeepExtension(CompiledExtension(lang));
    }
  }

  lemma DottedExtension(stem: string, ext: string)
    requires ext != []
    ensures stem + Dotted(ext) == stem + "." + ext
  {
  }

  /** Python is interpreted: nothing is built, and the runner is given the
      very file that was staged. */
  lemma PythonRunsItsSource(codeFile: Path, tempDir: Path)
    requires GetSandboxFiles(codeFile, Python, tempDir).Success?
    ensures var files := GetSandboxFiles(codeFile, Python, tempDir).value;
      && files.containerBin == files.containerSrc
      && GetCommands(files, Python) == Commands([], ["python", files.containerSrc])
  {
    StagedFileNames(codeFile, Python, tempDir);
  }

  /** Java is compiled: for a stem that is a normal name, `javac` is given
      the staged source and `java` the same name without its `.java`
      extension. */
  lemma JavaRunsWhatItCompiles(codeFile: Path, tempDir: Path)
    requires GetSandboxFiles(codeFile, Java, tempDir).Success?
    requires IsName(FileStem(codeFile).value)
    ensures var files := GetSandboxFiles(codeFile, Java, tempDir).value;
      && files.containerSrc == files.containerBin + ".java"
      && GetCommands(files, Java) == Commands(["javac", files.containerSrc], ["java", files.containerBin])
  {
    var files := GetSandboxFiles(codeFile, Java, tempDir).value;
    var stem := Stem(FileStem(codeFile).value);
    StagedFileNames(codeFile, Java, tempDir);
    assert files.containerBin == stem + [];
    assert files.containerSrc == stem + "." + "java";
    AppendDotJava(stem);
  }

  lemma AppendDotJava(stem: string)
    ensures stem + "." + "java" == (stem + []) + ".java"
  {
  }

  /** The code as written and the corrected definition agree on every code
      file whose stem is not `.`. */
  lemma AsWrittenAgreesUnlessDotStem(codeFile: Path, lang: Language, tempDir: Path)
    requires FileStem(codeFile) != Some(".")
    ensures GetSandboxFilesAsWritten(codeFile, lang, tempDir) == GetSandboxFiles(codeFile, lang, tempDir)
  {
    if FileStem(codeFile).Some? {
      var base := FileStem(codeFile).value;
      StemShapes(codeFile);
      if IsName(base) {
        NameUnderJoin(tempDir, base, SourceExtension(lang));
      } else {
        ParentUnderJoin(tempDir, SourceExtension(lang));
      }
    }
  }

  /** A code file named `..py` has stem `.`, and as written the host copy of
      it becomes `/tmp/abc.py` for staging directory `/tmp/abc`: a sibling
      of the staging directory, not the `.` the container is told to run. */
  lemma DotStemStagesOutside()
    ensures FileStem("..py") == Some(".")
    ensures GetSandboxFilesAsWritten("..py", Python, "/tmp/abc")
         == Success(SandboxFiles("/tmp/abc.py", ".", "."))
    ensures "/tmp/abc.py" != Join("/tmp/abc", ".")
  {
    StemOfDotDotPy();
    TempDirWithExtension();
    CurDirUnderJoin("/tmp/abc", "py");
    DotNamesKeepExtension("py");
    assert "/tmp/abc.py"[8] != "/tmp/abc/."[8];
  }

  lemma StemOfDotDotPy()
    ensures FileStem("..py") == Some(".")
  {
    var n := "..py";
    CutAtComponentStart(n, 0);
    TrunkIsWhole(n);
    assert n[0..] == n;
    assert FileName(n) == Some(n);
    assert LastDot(n) == Some(1) by {
      assert n[..3] == "..p" && "..p"[..2] == "..";
    }
    assert n[..1] == ".";
  }

  lemma TempDirWithExtension()
    ensures NameTrunk("/tmp/abc") == Some("/tmp/abc")
    ensures WithExtension("/tmp/abc", "py") == "/tmp/abc.py"
  {
    assert IsName("abc");
    assert LastDot("abc") == None by {
      assert "abc"[..2] == "ab" && "ab"[..1] == "a" && "a"[..0] == [];
    }
    NameAfterDirectory("/tmp/", "abc", "py");
    assert "/tmp/" + "abc" == "/tmp/abc";
  }
}

=== FILE: utf8.dfy ===
/** UTF-8 as RFC 3629 defines it (the byte-sequence grammar of section 4):
    the validity check and decoder behind Rust's `std::str::from_utf8`, and
    the encoder behind `str::as_bytes`. */
module Utf8 {
  import opened Wrappers

  newtype Byte = x: int | 0 <= x < 0x100

  /** Rust's `Utf8Error`: `validUpTo` is the length of the longest valid
      prefix of the rejected input. */
  datatype Utf8Error = Utf8Error(validUpTo: nat)

  predicate IsTail(b: Byte) {
    0x80 <= b <= 0xBF
  }

  /** Length of the well-formed UTF-8 character at the front of `b`
      (`UTF8-1` to `UTF8-4` of RFC 3629 section 4), or 0 when `b` does not
      start with one. Overlong forms, surrogates and code points beyond
      U+10FFFF are exactly what the second-byte ranges exclude. */
  function CharWidth(b: seq<Byte>): (w: nat)
    ensures w <= 4 && w <= |b|
  {
    if |b| == 0 then 0
    else if b[0] <= 0x7F then 1
    else if 0xC2 <= b[0] <= 0xDF then
      if |b| >= 2 && IsTail(b[1]) then 2 else 0
    else if b[0] == 0xE0 then
      if |b| >= 3 && 0xA0 <= b[1] <= 0xBF && IsTail(b[2]) then 3 else 0
    else if 0xE1 <= b[0] <= 0xEC || 0xEE <= b[0] <= 0xEF then
      if |b| >= 3 && IsTail(b[1]) && IsTail(b[2]) then 3 else 0
    else if b[0] == 0xED then
      if |b| >= 3 && 0x80 <= b[1] <= 0x9F && IsTail(b[2]) then 3 else 0
    else if b[0] == 0xF0 then
      if |b| >= 4 && 0x90 <= b[1] <= 0xBF && IsTail(b[2]) && IsTail(b[3]) then 4 else 0
    else if 0xF1 <= b[0] <= 0xF3 then
      if |b| >= 4 && IsTail(b[1]) && IsTail(b[2]) && IsTail(b[3]) then 4 else 0
    else if b[0] == 0xF4 then
      if |b| >= 4 && 0x80 <= b[1] <= 0x8F && IsTail(b[2]) && IsTail(b[3]) then 4 else 0
    else 0
  }

  /** `UTF8-octets = *( UTF8-char )`. */
  predicate ValidUtf8(b: seq<Byte>)
    decreases |b|
  {
    |b| == 0 || (CharWidth(b) > 0 && ValidUtf8(b[CharWidth(b)..]))
  }

  /** The scalar value of the character at the front of `b`: the payload
      bits of its bytes, six per continuation byte. */
  function DecodeChar(b: seq<Byte>): char
    requires CharWidth(b) > 0
  {
    var w := CharWidth(b);
    var cp :=
      if w == 1 then b[0] as int
      else if w == 2 then (b[0] as int - 0xC0) * 64 + (b[1] as int - 0x80)
      else if w == 3 then ((b[0] as int - 0xE0) * 64 + (b[1] as int - 0x80)) * 64 + (b[2] as int - 0x80)
      else (((b[0] as int - 0xF0) * 64 + (b[1] as int - 0x80)) * 64 + (b[2] as int - 0x80)) * 64 + (b[3] as int - 0x80);
    cp as char
  }

  /** The shortest UTF-8 form of one scalar value (RFC 3629 section 3): the
      value's bits, six at a time from the low end, go into continuation
      bytes, and the rest into a lead byte that announces the length. */
  function EncodeChar(c: char): (b: seq<Byte>)
    ensures 1 <= |b| <= 4
  {
    var cp := c as int;
    var q1 := cp / 64;
    var q2 := q1 / 64;
    if cp < 0x80 then [cp as Byte]
    else if cp < 0x800 then
      [(0xC0 + q1) as Byte, (0x80 + cp % 64) as Byte]
    else if cp < 0x10000 then
      [(0xE0 + q2) as Byte, (0x80 + q1 % 64) as Byte, (0x80 + cp % 64) as Byte]
    else
      [(0xF0 + q2 / 64) as Byte, (0x80 + q2 % 64) as Byte, (0x80 + q1 % 64) as Byte, (0x80 + cp % 64) as Byte]
  }

  /** `String::as_bytes`: the UTF-8 encoding of a string. */
  function Encode(s: string): seq<Byte>
  {
    if s == [] then [] else EncodeChar(s[0]) + Encode(s[1..])
  }

  /** The encoding of a character is a well-formed character, whatever
      follows it, and decodes back to it. */
  lemma EncodeCharDecodes(c: char, rest: seq<Byte>)
    ensures CharWidth(EncodeChar(c) + rest) == |EncodeChar(c)|
    ensures DecodeChar(EncodeChar(c) + rest) == c
  {
    var cp := c as int;
    var e := EncodeChar(c);
    var b := e + rest;
    if cp < 0x80 {
    } else if cp < 0x800 {
      assert b[0] == e[0] && b[1] == e[1];
    } else if cp < 0x10000 {
      assert b[0] == e[0] && b[1] == e[1] && b[2] == e[2];
    } else {
      assert b[0] == e[0] && b[1] == e[1] && b[2] == e[2] && b[3] == e[3];
    }
  }

  /** Decoding a well-formed character and encoding it again gives back
      exactly the bytes it was read from. */
  lemma DecodeCharEncodes(b: seq<Byte>)
    requires CharWidth(b) > 0
    ensures EncodeChar(DecodeChar(b)) == b[..CharWidth(b)]
  {
    var w := CharWidth(b);
    if w == 1 {
    } else if w == 2 {
      DecodeEncodes2(b);
    } else if w == 3 {
      DecodeEncodes3(b);
    } else {
      DecodeEncodes4(b);
    }
  }

  lemma DecodeEncodes2(b: seq<Byte>)
    requires CharWidth(b) == 2
    ensures EncodeChar(DecodeChar(b)) == b[..2]
  {
    Reencode2(b[0] as int - 0xC0, b[1] as int - 0x80);
  }

  lemma DecodeEncodes3(b: seq<Byte>)
    requires CharWidth(b) == 3
    ensures EncodeChar(DecodeChar(b)) == b[..3]
  {
    Reencode3(b[0] as int - 0xE0, b[1] as int - 0x80, b[2] as int - 0x80);
  }

  lemma DecodeEncodes4(b: seq<Byte>)
    requires CharWidth(b) == 4
    ensures EncodeChar(DecodeChar(b)) == b[..4]
  {
    Reencode4(b[0] as int - 0xF0, b[1] as int - 0x80, b[2] as int - 0x80, b[3] as int - 0x80);
  }

  lemma Reencode2(x0: int, x1: int)
    requires 0 <= x1 < 64
    ensures (x0 * 64 + x1) / 64 == x0 && (x0 * 64 + x1) % 64 == x1
  {
  }

  lemma Reencode3(x0: int, x1: int, x2: int)
    requires 0 <= x1 < 64 && 0 <= x2 < 64
    ensures var cp := (x0 * 64 + x1) * 64 + x2;
      cp / 64 / 64 == x0 && cp / 64 % 64 == x1 && cp % 64 == x2
  {
    Reencode2(x0 * 64 + x1, x2);
    Reencode2(x0, x1);
  }

  lemma Reencode4(x0: int, x1: int, x2: int, x3: int)
    requires 0 <= x1 < 64 && 0 <= x2 < 64 && 0 <= x3 < 64
    ensures var cp := ((x0 * 64 + x1) * 64 + x2) * 64 + x3;
      cp / 64 / 64 / 64 == x0 && cp / 64 / 64 % 64 == x1 && cp / 64 % 64 == x2 && cp % 64 == x3
  {
    Reencode2((x0 * 64 + x1) * 64 + x2, x3);
    Reencode3(x0, x1, x2);
  }

  /** Whether a well-formed character starts a byte string depends only on
      the bytes of that character. */
  lemma WidthIsLocal(b: seq<Byte>, j: nat)
    requires j <= |b|
    ensures CharWidth(b[..j]) > 0 ==> CharWidth(b) == CharWidth(b[..j])
    ensures 0 < CharWidth(b) <= j ==> CharWidth(b[..j]) == CharWidth(b)
  {
  }

  /** `from_utf8`: the string a valid byte string encodes, or where the
      first ill-formed character starts. */
  function FromUtf8(b: seq<Byte>): (r: Result<string, Utf8Error>)
    ensures r.Failure? ==> r.error.validUpTo < |b|
    decreases |b|
  {
    if |b| == 0 then Success([])
    else
      var w := CharWidth(b);
      if w == 0 then Failure(Utf8Error(0))
      else match FromUtf8(b[w..])
        case Success(s) => Success([DecodeChar(b)] + s)
        case Failure(e) => Failure(Utf8Error(w + e.validUpTo))
  }

  /** `from_utf8` accepts exactly the valid byte strings. */
  lemma {:induction false} FromUtf8AcceptsValid(b: seq<Byte>)
    ensures FromUtf8(b).Success? <==> ValidUtf8(b)
    decreases |b|
  {
    if |b| > 0 && CharWidth(b) > 0 {
      FromUtf8AcceptsValid(b[CharWidth(b)..]);
    }
  }

  /** What `from_utf8` returns encodes back to its input. */
  lemma {:induction false} FromUtf8Reencodes(b: seq<Byte>)
    requires FromUtf8(b).Success?
    ensures Encode(FromUtf8(b).value) == b
    decreases |b|
  {
    if |b| > 0 {
      var w := CharWidth(b);
      FromUtf8Reencodes(b[w..]);
      DecodedFront(b, FromUtf8(b[w..]).value);
    }
  }

  /** On rejection, `valid_up_to` ends a valid prefix, and no well-formed
      character starts there. */
  lemma {:induction false} FromUtf8StopsAtError(b: seq<Byte>)
    requires FromUtf8(b).Failure?
    ensures var v := FromUtf8(b).error.validUpTo;
      ValidUtf8(b[..v]) && CharWidth(b[v..]) == 0
    decreases |b|
  {
    var w := CharWidth(b);
    if w == 0 {
      assert b[..0] == [] && b[0..] == b;
    } else {
      var e := FromUtf8(b[w..]);
      assert e.Failure? && FromUtf8(b).error.validUpTo == w + e.error.validUpTo;
      FromUtf8StopsAtError(b[w..]);
      InvalidAfterFront(b, e.error.validUpTo);
    }
  }

  /** The two halves of `from_utf8`'s promise on valid input, together. */
  lemma FromUtf8Spec(b: seq<Byte>)
    ensures FromUtf8(b).Success? <==> ValidUtf8(b)
    ensures FromUtf8(b).Success? ==> Encode(FromUtf8(b).value) == b
  {
    FromUtf8AcceptsValid(b);
    if FromUtf8(b).Success? {
      FromUtf8Reencodes(b);
    }
  }

  /** Decoding the front character and then the rest accounts for every byte. */
  lemma DecodedFront(b: seq<Byte>, s: string)
    requires CharWidth(b) > 0 && Encode(s) == b[CharWidth(b)..]
    ensures Encode([DecodeChar(b)] + s) == b
  {
    var c := DecodeChar(b);
    DecodeCharEncodes(b);
    assert ([c] + s)[0] == c && ([c] + s)[1..] == s;
    assert b == b[..CharWidth(b)] + b[CharWidth(b)..];
  }

  /** An ill-formed character found `v` bytes after a well-formed front
      character is `CharWidth(b) + v` bytes into `b`, after a valid prefix. */
  lemma InvalidAfterFront(b: seq<Byte>, v: nat)
    requires CharWidth(b) > 0
    requires var rest := b[CharWidth(b)..]; v < |rest| && ValidUtf8(rest[..v]) && CharWidth(rest[v..]) == 0
    ensures var u := CharWidth(b) + v; u < |b| && ValidUtf8(b[..u]) && CharWidth(b[u..]) == 0
  {
    var w := CharWidth(b);
    var u := w + v;
    WidthIsLocal(b, u);
    assert b[..u][w..] == b[w..][..v];
    assert b[u..] == b[w..][v..];
  }

  /** A valid byte string parses into characters in exactly one way: a
      valid prefix ends on a character boundary, so what follows it is valid
      too. */
  lemma {:induction false} ValidPrefixSplits(b: seq<Byte>, i: nat)
    requires i <= |b|
    requires ValidUtf8(b) && ValidUtf8(b[..i])
    ensures ValidUtf8(b[i..])
    decreases i
  {
    if i == 0 {
      assert b[0..] == b;
    } else {
      var w := CharWidth(b[..i]);
      WidthIsLocal(b, i);
      var rest := b[w..];
      assert rest[..i - w] == b[..i][w..];
      ValidPrefixSplits(rest, i - w);
      assert rest[i - w..] == b[i..];
    }
  }

  /** `Utf8Error::valid_up_to` is the largest index up to which the input is
      valid: no longer prefix of a rejected byte string is valid UTF-8. */
  lemma ValidUpToIsMaximal(b: seq<Byte>, j: nat)
    requires FromUtf8(b).Failure?
    requires FromUtf8(b).error.validUpTo < j <= |b|
    ensures !ValidUtf8(b[..j])
  {
    var v := FromUtf8(b).error.validUpTo;
    FromUtf8StopsAtError(b);
    StuckPrefixIsMaximal(b, v, j);
  }

  lemma StuckPrefixIsMaximal(b: seq<Byte>, v: nat, j: nat)
    requires v < j <= |b|
    requires ValidUtf8(b[..v]) && CharWidth(b[v..]) == 0
    ensures !ValidUtf8(b[..j])
  {
    var c := b[..j];
    assert c[..v] == b[..v];
    if ValidUtf8(c) {
      ValidPrefixSplits(c, v);
      assert c[v..] == b[v..][..j - v];
      WidthIsLocal(b[v..], j - v);
      assert false;
    }
  }

  /** Every string encodes to valid UTF-8. */
  lemma {:induction false} EncodeIsValid(s: string)
    ensures ValidUtf8(Encode(s))
  {
    if s != [] {
      var e := EncodeChar(s[0]);
      EncodeCharDecodes(s[0], Encode(s[1..]));
      EncodeIsValid(s[1..]);
      assert (e + Encode(s[1..]))[|e|..] == Encode(s[1..]);
    }
  }

  /** Distinct strings have distinct encodings. */
  lemma {:induction false} EncodeIsInjective(s: string, t: string)
    requires Encode(s) == Encode(t)
    ensures s == t
  {
    if s != [] && t != [] {
      var es, et := EncodeChar(s[0]), EncodeChar(t[0]);
      EncodeCharDecodes(s[0], Encode(s[1..]));
      EncodeCharDecodes(t[0], Encode(t[1..]));
      assert s[0] == t[0];
      assert Encode(s[1..]) == (es + Encode(s[1..]))[|es|..];
      assert Encode(t[1..]) == (et + Encode(t[1..]))[|et|..];
      EncodeIsInjective(s[1..], t[1..]);
      assert s == [s[0]] + s[1..];
      assert t == [t[0]] + t[1..];
    }
  }

  /** Decoding inverts encoding. */
  lemma DecodeEncode(s: string)
    ensures FromUtf8(Encode(s)) == Success(s)
  {
    EncodeIsValid(s);
    FromUtf8AcceptsValid(Encode(s));
    FromUtf8Reencodes(Encode(s));
    EncodeIsInjective(FromUtf8(Encode(s)).value, s);
  }
}

=== FILE: workflow.dfy ===
/** The workflow builder of `src/workflow.rs`: a workflow is assembled step
    by step from an input text, a list of code steps and a list of exports,
    and `build` turns it into a `Workflow` by constructing the Docker
    sandbox. Sandbox construction talks to Docker; it is given as an
    oracle. */
module Workflows {
  import opened Wrappers
  import opened Paths
  import opened Languages
  import opened SandboxErrors
  import opened Sandbox

  /** One code step: the program to run, its language and a description. */
  datatype Step = Step(lang: Language, codeFile: Path, desc: string)

  /** What to do with the final output. */
  datatype Export =
    | SaveFile(desc: string, path: Path)
    | SendEmail(desc: string, to: string, subject: string)

  datatype WorkflowBuilder = WorkflowBuilder(
    directory: Path,
    imageTag: string,
    input: string,
    steps: seq<Step>,
    exports: seq<Export>)

  datatype Workflow = Workflow(
    sandbox: DockerSandbox,
    input: string,
    steps: seq<Step>,
    exports: seq<Export>)

  /** The only workflow error `build` produces. */
  datatype WorkflowError = SandboxInit(source: SandboxError)

  /** What `DockerSandbox::new(directory, image_tag)` asks of the outside
      world: validate the directory and build the image from its
      Dockerfile under the tag. Either succeeds or fails with the
      corresponding sandbox error. */
  type NewSandbox = (Path, string) -> Outcome<SandboxError>

  /** `Workflow::builder`: a builder for the given Docker context, with an
      empty input and no steps or exports. */
  function Builder(directory: Path, imageTag: string): (b: WorkflowBuilder)
    ensures b.directory == directory && b.imageTag == imageTag
    ensures b.input == "" && |b.steps| == 0 && |b.exports| == 0
  {
    WorkflowBuilder(directory, imageTag, "", [], [])
  }

  /** `WorkflowBuilder::input`: replaces the input; nothing else changes. */
  function Input(b: WorkflowBuilder, value: string): (r: WorkflowBuilder)
    ensures r.input == value
    ensures r.directory == b.directory && r.imageTag == b.imageTag
    ensures r.steps == b.steps && r.exports == b.exports
  {
    b.(input := value)
  }

  /** `WorkflowBuilder::add_step`: appends one step after the existing ones;
      nothing else changes. */
  function AddStep(b: WorkflowBuilder, step: Step): (r: WorkflowBuilder)
    ensures |r.steps| == |b.steps| + 1
    ensures r.steps[..|b.steps|] == b.steps && r.steps[|b.steps|] == step
    ensures r.directory == b.directory && r.imageTag == b.imageTag
    ensures r.input == b.input && r.exports == b.exports
  {
    b.(steps := b.steps + [step])
  }

  /** `WorkflowBuilder::add_export`: appends one export after the existing
      ones; nothing else changes. */
  function AddExport(b: WorkflowBuilder, ex: Export): (r: WorkflowBuilder)
    ensures |r.exports| == |b.exports| + 1
    ensures r.exports[..|b.exports|] == b.exports && r.exports[|b.exports|] == ex
    ensures r.directory == b.directory && r.imageTag == b.imageTag
    ensures r.input == b.input && r.steps == b.steps
  {
    b.(exports := b.exports + [ex])
  }

  /** `WorkflowBuilder::build`: constructs the sandbox from the builder's
      directory and image tag. A construction error is wrapped in
      `SandboxInit`; otherwise the sandbox runs its containers from the
      builder's image tag, and the input, steps and exports are carried
      over unchanged. */
  function Build(b: WorkflowBuilder, newSandbox: NewSandbox): (r: Result<Workflow, WorkflowError>)
    ensures r.Failure? <==> newSandbox(b.directory, b.imageTag).Fail?
    ensures r.Failure? ==> r.error == SandboxInit(newSandbox(b.directory, b.imageTag).error)
    ensures r.Success? ==>
      && r.value.sandbox.imageTag == b.imageTag
      && r.value.input == b.input
      && r.value.steps == b.steps
      && r.value.exports == b.exports
  {
    match newSandbox(b.directory, b.imageTag)
    case Fail(e) => Failure(SandboxInit(e))
    case Pass => Success(Workflow(DockerSandbox(b.imageTag), b.input, b.steps, b.exports))
  }

  /** One call of the builder's chained setters. */
  datatype BuilderCall =
    | SetInput(value: string)
    | PushStep(step: Step)
    | PushExport(ex: Export)

  function Call(b: WorkflowBuilder, c: BuilderCall): WorkflowBuilder {
    match c
    case SetInput(v) => Input(b, v)
    case PushStep(s) => AddStep(b, s)
    case PushExport(e) => AddExport(b, e)
  }

  /** A chain of setter calls, applied left to right. */
  function Chain(b: WorkflowBuilder, calls: seq<BuilderCall>): WorkflowBuilder
    decreases |calls|
  {
    if |calls| == 0 then b else Chain(Call(b, calls[0]), calls[1..])
  }

  /** The step one call adds: none unless it is `add_step`. */
  function StepOf(c: BuilderCall): seq<Step> {
    if c.PushStep? then [c.step] else []
  }

  /** The export one call adds: none unless it is `add_export`. */
  function ExportOf(c: BuilderCall): seq<Export> {
    if c.PushExport? then [c.ex] else []
  }

  /** The steps a chain adds, in call order. */
  function StepsOf(calls: seq<BuilderCall>): seq<Step> {
    if |calls| == 0 then [] else StepOf(calls[0]) + StepsOf(calls[1..])
  }

  /** The exports a chain adds, in call order. */
  function ExportsOf(calls: seq<BuilderCall>): seq<Export> {
    if |calls| == 0 then [] else ExportOf(calls[0]) + ExportsOf(calls[1..])
  }

  lemma AppendAssociates<T>(a: seq<T>, b: seq<T>, c: seq<T>)
    ensures (a + b) + c == a + (b + c)
  {
  }

  lemma CallAppends(b: WorkflowBuilder, c: BuilderCall)
    ensures Call(b, c).steps == b.steps + StepOf(c)
    ensures Call(b, c).exports == b.exports + ExportOf(c)
  {
  }

  /** The input after a chain: the last value set, or `current` if none. */
  function LastInput(calls: seq<BuilderCall>, current: string): string {
    if |calls| == 0 then current
    else LastInput(calls[1..], if calls[0].SetInput? then calls[0].value else current)
  }

  /** The Docker context survives every setter call. */
  lemma {:induction false} ChainKeepsContext(b: WorkflowBuilder, calls: seq<BuilderCall>)
    ensures Chain(b, calls).directory == b.directory
    ensures Chain(b, calls).imageTag == b.imageTag
    decreases |calls|
  {
    if |calls| > 0 {
      ChainKeepsContext(Call(b, calls[0]), calls[1..]);
    }
  }

  /** Steps accumulate in call order. */
  lemma {:induction false} ChainAddsSteps(b: WorkflowBuilder, calls: seq<BuilderCall>)
    ensures Chain(b, calls).steps == b.steps + StepsOf(calls)
    decreases |calls|
  {
    if |calls| > 0 {
      var next := Call(b, calls[0]);
      assert Chain(b, calls) == Chain(next, calls[1..]);
      CallAppends(b, calls[0]);
      ChainAddsSteps(next, calls[1..]);
      assert StepsOf(calls) == StepOf(calls[0]) + StepsOf(calls[1..]);
      AppendAssociates(b.steps, StepOf(calls[0]), StepsOf(calls[1..]));
    }
  }

  /** Exports accumulate in call order. */
  lemma {:induction false} ChainAddsExports(b: WorkflowBuilder, calls: seq<BuilderCall>)
    ensures Chain(b, calls).exports == b.exports + ExportsOf(calls)
    decreases |calls|
  {
    if |calls| > 0 {
      var next := Call(b, calls[0]);
      assert Chain(b, calls) == Chain(next, calls[1..]);
      CallAppends(b, calls[0]);
      ChainAddsExports(next, calls[1..]);
      assert ExportsOf(calls) == ExportOf(calls[0]) + ExportsOf(calls[1..]);
      AppendAssociates(b.exports, ExportOf(calls[0]), ExportsOf(calls[1..]));
    }
  }

  /** The last `input` call wins. */
  lemma {:induction false} ChainSetsLastInput(b: WorkflowBuilder, calls: seq<BuilderCall>)
    ensures Chain(b, calls).input == LastInput(calls, b.input)
    decreases |calls|
  {
    if |calls| > 0 {
      ChainSetsLastInput(Call(b, calls[0]), calls[1..]);
    }
  }

  /** A workflow built from a fresh builder holds exactly the steps and
      exports of its chain, in order, with the last input set, and a sandbox for
      the image tag the builder was created with. */
  lemma BuiltWorkflowFollowsChain(directory: Path, imageTag: string, calls: seq<BuilderCall>,
                                  newSandbox: NewSandbox)
    ensures var r := Build(Chain(Builder(directory, imageTag), calls), newSandbox);
      && (r.Failure? <==> newSandbox(directory, imageTag).Fail?)
      && (r.Failure? ==> r.error == SandboxInit(newSandbox(directory, imageTag).error))
      && (r.Success? ==>
            && r.value.sandbox.imageTag == imageTag
            && r.value.steps == StepsOf(calls)
            && r.value.exports == ExportsOf(calls)
            && r.value.input == LastInput(calls, ""))
  {
    var b := Builder(directory, imageTag);
    ChainKeepsContext(b, calls);
    ChainAddsSteps(b, calls);
    ChainAddsExports(b, calls);
    ChainSetsLastInput(b, calls);
  }

  /** Setting the input twice is the same as setting it once to the second
      value. */
  lemma InputOverwrites(b: WorkflowBuilder, first: string, second: string)
    ensures Input(Input(b, first), second) == Input(b, second)
  {
  }

  /** Steps and exports live in separate lists, so adding a step and adding
      an export commute. */
  lemma StepAndExportCommute(b: WorkflowBuilder, step: Step, ex: Export)
    ensures AddExport(AddStep(b, step), ex) == AddStep(AddExport(b, ex), step)
  {
  }
}

=== FILE: wrappers.dfy ===
/** Failure-carrying values: Rust's `Option` and `Result`, and a value-less
    `Outcome` for operations that return `Result<(), E>`. */
module Wrappers {

  datatype Option<+T> = None | Some(value: T)

  datatype Result<+R, +E> = Success(value: R) | Failure(error: E)

  datatype Outcome<+E> = Pass | Fail(error: E)
}
